=== FILE: README.md ===
# openvpn-registrator in Dafny

The registrator reads OpenVPN's status file (format version 1) and keeps a
Consul agent in step with it. Each connected client gets a service named
`openvpn-client:<common name>`. The service is tagged `openvpn-registrator`
and has a 120-second TTL check. On each read of the file, the registrator
passes the check of each client whose service was found or has just been
registered.

This project models the two pieces of logic in `registrator.js`:

- **The status-log parser** (`parseStatus`). It has a line handler and an end handler.
  - `JsText` models the JavaScript it relies on: `split(',')`, indexing past the
    end of the pieces, `indexOf(p) === 0`, and `undefined`/`null` next to
    strings, both in concatenation and as property keys.
  - `StatusModel` states the handler as pure functions. `Step` handles one
    line, `Run` handles the lines read so far, `EndStatus` flattens the
    dictionary, and `Parse` is a whole read. `Valid` is the invariant between
    lines.
  - `StatusParsing` holds the parser as the source writes it: a class whose fields are the
    closure variables, updated in place. `ProcessLine` handles a line,
    `Finish` runs the end handler's loop over the keys, and `ParseStatus` is a
    driver. Each is proved to compute exactly what the functions say.
  - `StatusProperties` proves what a whole read guarantees.
- **The reconciliation** (`handleStatus`, `registerClient`, `updateCheck`), in
  `Registrator`.
  - The registry is not called. The service listing and the outcome of each
    registration are inputs.
  - The result for each client is the list of registry calls issued for it:
    register, then pass the check.

## Model

| member | source | states |
|---|---|---|
| JsText.Text | registrator.js:177 | `'...' + v` appends the string itself, and for `undefined`/`null` a non-empty word holding no line break and no comma |
| JsText.IndexOfText | registrator.js:73 | `indexOf` gives the first position where the pattern occurs, or -1 exactly when it occurs nowhere |
| JsText.StartsWithIsIndexOfZero | registrator.js:73-77 | the prefix test StartsWith that the model uses holds exactly when `indexOf(p) === 0`, the source's test at lines 73, 77 and 99 |
| JsText.Split | registrator.js:74 | `split(sep)` always yields at least one piece (so field 0 always exists) |
| JsText.SplitPieces | registrator.js:84 | no piece holds the separator; a string without it is a single piece |
| JsText.JoinSplit | registrator.js:84 | joining the pieces with the separator gives the string back: splitting loses nothing |
| JsText.SplitJoin | registrator.js:105 | splitting separator-free pieces joined by the separator gives back the pieces |
| JsText.Field | registrator.js:86-93 | indexing the pieces yields `undefined` exactly past the end, otherwise the piece |
| StatusModel.SeveralPiecesNotHeader | registrator.js:58-66 | a line holding a comma is never a section header |
| StatusModel.SectionAfter | registrator.js:58-66 | only a line exactly equal to one of the three headers switches section, each to its own section; any other line keeps the section |
| StatusModel.ClientRow | registrator.js:84-94 | a client row's record takes name, address, received, sent and connected from fields 0-4 (undefined when missing); virtual and updated are null |
| StatusModel.Upsert | registrator.js:86 | assigning a dictionary key appends a new key to the key order, keeps an existing key's place, and changes nothing else |
| StatusModel.ClientsLine | registrator.js:72-95 | an `Updated` line sets `updated` to field 1, and no other line changes it. A `Common Name` line sets `clientStart`, empties `clients` and leaves the dictionary alone. After it, every line upserts its field 0 (last write wins, virtual/updated reset to null). Before it, no line builds a row |
| StatusModel.RoutesLine | registrator.js:98-110 | the `Virtual Address` line only sets `routesStart`. Once it is set, a row changes virtual (field 0) and updated (field 3) of the record keyed by field 1 (the key "undefined" when missing), only if that record exists. Routes lines never add or remove keys |
| StatusModel.Step | registrator.js:57-114 | the new section is SectionAfter. Before any header nothing changes; the stats section changes nothing but the section. Keys are added at most one at a time, at the end. Only the clients section touches `updated`, `clients` and `clientStart`, and only the routes section touches `routesStart`. Neither flag is ever cleared |
| StatusModel.StepValid | registrator.js:57-114 | each line keeps the invariant: distinct key order listing exactly the dictionary's keys, records stored under their own name, `clients` present (and still empty) exactly once `clientStart` is set, no record before that |
| StatusModel.Run | registrator.js:57-114 | over any number of lines, keys are never removed or reordered and neither flag is ever cleared |
| StatusModel.RunValid | registrator.js:57-114 | the invariant holds after any number of lines |
| StatusModel.Flatten | registrator.js:44-46 | the records in key order: one per key, the i-th being the record of the i-th key |
| StatusModel.EndStatus | registrator.js:43-48 | the end handler keeps `updated`; `clients` exists exactly when a `Common Name` line created it, and then holds one record per key, the i-th being the record of the i-th key |
| StatusModel.Parse | registrator.js:30-116 | an empty read gives `updated` undefined and no `clients`; otherwise `clients` exists exactly when a `Common Name` line was read, and holds the records of the dictionary in first-insertion order |
| StatusParsing.StatusParser.constructor | registrator.js:31-37 | the variables start as `parseStatus` initialises them, and the invariant holds |
| StatusParsing.StatusParser.ProcessLine | registrator.js:57-114 | the in-place line handler leaves exactly the state Step gives and keeps the invariant |
| StatusParsing.StatusParser.Finish | registrator.js:43-48 | the end handler's loop leaves `statusObj` exactly as EndStatus gives it (records pushed in key order) and changes nothing else |
| StatusParsing.ParseStatus | registrator.js:30-116 | reading the lines one by one through the class, then ending, yields exactly Parse(lines) |
| StatusProperties.NoSectionRunInert | registrator.js:58-70 | lines before the first header change nothing |
| StatusProperties.StatsRunInert | registrator.js:64-72 | lines in the stats section change nothing until the next header |
| StatusProperties.RoutesRunKeepsKeys | registrator.js:98-110 | a run of routes lines keeps the key set, the key order, `statusObj`, `clientStart` and every field a client row set |
| StatusProperties.UpdatedNeedsUpdatedLine | registrator.js:73-74 | without an `Updated` line, `statusObj.updated` is unchanged by any run |
| StatusProperties.RunOrderGrows | registrator.js:86 | the key order after a prefix of the lines is a prefix of the final key order, and no key disappears |
| StatusProperties.KeysAreRowNames | registrator.js:83-94 | the dictionary's keys are exactly the initial keys plus the field-0 names of the lines taken as client rows |
| StatusProperties.EndStatusOneEntryPerKey | registrator.js:43-48 | the end handler produces one record per key, in key order, with distinct names, each the dictionary's record; `clients` exists whenever there is a record |
| StatusProperties.ParseOneEntryPerName | registrator.js:30-116 | after a whole read, `clients` holds exactly one record per distinct client-row name, in first-insertion order, and exists whenever any client row was read |
| StatusProperties.MissingKeyFieldHitsUndefined | registrator.js:104-109 | a routes row with no second field changes exactly the record of a client named `undefined` (virtual := the whole line, updated := undefined) when there is one, and nothing otherwise |
| StatusProperties.RunAppend | registrator.js:57 | reading `a` then `b` is reading `a + b` |
| StatusProperties.OneClientWithRoute | registrator.js:30-116 | a log with one client row and one routing row naming it parses to exactly that client, with fields from its row, virtual address and last reference from the routing row, and `updated` from the `Updated` line |
| Registrator.ServiceName | registrator.js:125 | the service name is `openvpn-client:` followed by the client's name, which can be read back from it |
| Registrator.CheckId | registrator.js:173 | the check id is `service:` followed by the client's service name |
| Registrator.IndexOf | registrator.js:130 | `indexOf` gives -1 exactly when the tag is absent, otherwise the position of its first occurrence |
| Registrator.Owns | registrator.js:130 | a listed service is the registrator's own for a name exactly when `Tags.indexOf('openvpn-registrator') !== -1` and its `Service` equals that name |
| Registrator.Listed | registrator.js:127-133 | "found" holds exactly when some listed service, wherever it is listed, is the registrator's own for the name |
| Registrator.RegisterOptions | registrator.js:138-150 | the registration has id = name = service name, tags exactly `[openvpn-registrator]`, address = the client's virtual address, ttl `120s`, status `passing` |
| Registrator.RegisteredFoundIff | registrator.js:130-144 | a listing holding a client's registered service finds it for that client and for no other client |
| Registrator.CheckNote | registrator.js:177 | the note starts with `Name: <name>` and `Connected At: `, followed by the connected time, `Updated At: ` and the last-update time (printed as `undefined`/`null` when absent) |
| Registrator.CheckNoteLines | registrator.js:177 | the note reads back: when the name and the two times hold no line break, splitting it on line breaks gives exactly `Name: <name>`, `Connected At: <connected>` and `Updated At: <updated>` |
| Registrator.UpdateCheck | registrator.js:170-177 | a check pass on `service:` + the service name, carrying the note CheckNote |
| Registrator.Plan | registrator.js:135-165 | a client is registered, first and with its options, exactly when its service was not found. The only calls ever issued are that registration and that check pass. The check is passed iff the service was found or the registration succeeded, and last, never after a failed registration |
| Registrator.RegisterClient | registrator.js:124-168 | the loop over the listing decides "found" as: some service carries the registrator's tag and has the client's service name. The calls issued are exactly Plan's |
| Registrator.Plans | registrator.js:119-121 | one plan per client, in list order, each decided by the listing and that client's own registration outcome |
| Registrator.HandleStatusAsWritten | registrator.js:118-122 | as written, the pass throws exactly when `clients` was never set, and otherwise gives one plan per client |
| Registrator.EmptyLogThrows | registrator.js:118-122 | an empty status file leaves `clients` unset, so the pass as written throws |
| Registrator.NoColumnHeaderThrows | registrator.js:77-79 | any read without a `Common Name` line, such as a file cut off before the column header, leaves `clients` unset, so the pass as written throws |
| Registrator.HandleStatus | registrator.js:118-122 | every parse, including an empty or cut-off file, yields one plan per parsed client, and the same plans as written whenever `clients` was set |
| Registrator.SiblingsIndependent | registrator.js:119-121 | a registration failure for one client changes nothing for any other |
| Registrator.ListedPassOnlyChecks | registrator.js:128-135 | once every client's registered service is listed, a pass registers nothing and passes each check exactly once |
| Registrator.ListedAfterFirstPass | registrator.js:135-160 | assuming the registry lists each successfully registered service as AsListed of its options, after the old listing: after a pass whose registration of a client succeeds, that client's service is listed, whether it was before or not |
| Registrator.SecondPassRegistersNothing | registrator.js:118-168 | under the same registry assumption: after a pass whose registrations all succeed, a second pass over the same parse registers nothing and passes each check exactly once |

## Left out

- Argument parsing, the Consul connection setup and all logging (registrator.js:7-28 and every `logger` call). These are configuration and side effects only.
- File streaming, `readline` and their error callbacks (registrator.js:39-55). The input is a finite sequence of lines, already split. A read error, and `handleStatus` dereferencing a missing status after one, are not modelled.
- StatusModel.Parse and StatusParsing.ParseStatus take only the newline-terminated lines of the file.
  - The stream's `end` listener (registrator.js:43) is attached before readline's own (registrator.js:51-53). Readline's listener is what delivers a last line that has no trailing newline.
  - So that line reaches the handler only after the snapshot has been handed to `handleStatus`, and it is not part of the snapshot.
  - Its late effect is not modelled. A routing row can still change records the snapshot shares with `clientObj`, and `updateCheck` reads them later, after the listing arrives.
- The startup existence check, `process.exit` and the `fs.watchFile` re-reads (registrator.js:189-200). These are operating-system I/O. Passes triggered by the watcher can overlap, which is concurrency.
- The registry calls `service.list`, `service.register` and `check.pass`. They are foreign network calls.
  - Their results are inputs: a service listing, and a register outcome per service name.
  - Errors of `check.pass` are only logged, so they do not change the calls.
  - An error from `service.list`, which leaves `services` undefined, is not modelled.
- Registrator.Plans: the source lists the services once per client, asynchronously, so the listings could differ between clients of one pass. The model takes one listing per pass, and the calls of different clients are not interleaved.
- Registrator.SecondPassRegistersNothing and Registrator.ListedAfterFirstPass rest on an assumption about the registry, not on the source. They assume the next listing is the old one followed by AsListed(options) for each successful registration, with the same id, name and tags.
- Registrator.RegisterClient: every listed entry is assumed to carry a `Tags` array (`Service.tags` is a sequence). The source reads `service.Tags.indexOf(...)` with no guard (registrator.js:130), so an entry whose `Tags` is null or missing throws a TypeError inside the `service.list` callback. That throw is uncaught, and no call is issued for the client. The model cannot express such an entry, so "found iff some entry is owned" is promised only for listings whose entries all have tags.
- Registrator.RegisterClient: the listing is an object keyed by service id. It is modelled as a sequence of its values, which does not change "found", since that is an existence test.
- `Object.keys` order and prototype keys:
  - JavaScript lists integer-like keys first, in numeric order; the model keeps plain first-insertion order.
  - `typeof clientObj[k]` also sees inherited keys such as `constructor`; the model's dictionary has only the keys that were assigned.
  - A client row whose field 0 is `__proto__` sets `clientObj`'s prototype at registrator.js:86 instead of adding a key. `Object.keys` then skips it, so the source's snapshot lacks that client, while the model's Upsert adds it and Parse returns it.
- The stray global assignment `skip = false` (registrator.js:113). It has no effect on the parser.

## Findings

| source | as written | input that shows it | evidently intended | confidence | as-written member | corrected member |
|---|---|---|---|---|---|---|
| registrator.js:118-122 | `handleStatus` calls `status.clients.forEach`. `clients` is only set by a `Common Name` line (registrator.js:79), so a read with no such line throws a TypeError inside the read stream's `end` callback | an empty status file, or one cut off before the `Common Name` line, as can be read while OpenVPN rewrites it; the watcher re-reads on every change | a status with no client list means no clients, so the pass does nothing and the process keeps running | not executed | Registrator.HandleStatusAsWritten, Registrator.EmptyLogThrows, Registrator.NoColumnHeaderThrows | Registrator.HandleStatus |

=== FILE: js_text.dfy ===
/** The small part of JavaScript's value and string semantics that the
    registrator relies on: `undefined` and `null` next to strings, string
    concatenation of such values, `String.prototype.split`, indexing
    past the end of the resulting array, and `indexOf`. A value used as a
    property key (`obj[v]`) is converted by the same ToString that `+`
    uses, so the key is Text(v). */
module JsText {

  datatype Option<T> = None | Some(value: T)

  /** A JavaScript value as it appears in the parsed records. */
  datatype JsValue = Undefined | Null | Str(s: string)

  /** What `'...' + v` appends for the value `v`, and the key `obj[v]`
      looks up. An absent value prints as a word, so it never adds a line
      break or a comma of its own. */
  function Text(v: JsValue): (r: string)
    ensures v.Str? ==> r == v.s
    ensures !v.Str? ==> '\n' !in r && ',' !in r && |r| > 0
  {
    match v
    case Undefined => "undefined"
    case Null => "null"
    case Str(s) => s
  }

  /** `s.indexOf(p)`: the first position at which `p` occurs in `s`, or -1. */
  function IndexOfText(s: string, p: string): (i: int)
    ensures i == -1 || (0 <= i <= |s| - |p| && p <= s[i..])
    ensures i != -1 ==> forall k :: 0 <= k < i ==> !(p <= s[k..])
    ensures i == -1 ==> forall k :: 0 <= k <= |s| ==> !(p <= s[k..])
  {
    if p <= s then 0
    else if s == [] then -1
    else
      var j := IndexOfText(s[1..], p);
      assert forall k :: 1 <= k <= |s| ==> s[k..] == s[1..][k - 1..];
      if j == -1 then -1 else j + 1
  }

  /** `s.indexOf(p) === 0`: the first occurrence of `p` starts at index 0,
      which holds exactly when `p` is a prefix of `s`. */
  predicate StartsWith(s: string, p: string)
  {
    p <= s
  }

  /** The prefix test is the source's test: `p` is a prefix of `s` exactly
      when `s.indexOf(p)` is 0. */
  lemma StartsWithIsIndexOfZero(s: string, p: string)
    ensures StartsWith(s, p) <==> IndexOfText(s, p) == 0
  {
  }

  /** `s.split(sep)`: the pieces between separators, in order. The empty
      string splits into one empty piece, and so does each end of a leading
      or trailing separator. */
  function Split(s: string, sep: char): (parts: seq<string>)
    ensures |parts| >= 1
  {
    if s == [] then [""]
    else if s[0] == sep then [""] + Split(s[1..], sep)
    else
      var rest := Split(s[1..], sep);
      [[s[0]] + rest[0]] + rest[1..]
  }

  /** No piece of a split holds the separator, and a string without it is
      a single piece. */
  lemma {:induction false} SplitPieces(s: string, sep: char)
    ensures forall i :: 0 <= i < |Split(s, sep)| ==> sep !in Split(s, sep)[i]
    ensures sep !in s ==> Split(s, sep) == [s]
  {
    if s != [] {
      SplitPieces(s[1..], sep);
      if s[0] != sep {
        assert sep !in s ==> s == [s[0]] + s[1..];
        var rest := Split(s[1..], sep);
        assert sep !in rest[0];
      }
    }
  }

  /** `parts.join(sep)`, the inverse of Split. */
  function Join(parts: seq<string>, sep: char): string
    requires |parts| >= 1
  {
    if |parts| == 1 then parts[0] else parts[0] + [sep] + Join(parts[1..], sep)
  }

  /** Joining the pieces of a split gives the string back, so splitting
      loses nothing. */
  lemma {:induction false} JoinSplit(s: string, sep: char)
    ensures Join(Split(s, sep), sep) == s
  {
    if s == [] {
    } else if s[0] == sep {
      JoinSplit(s[1..], sep);
      assert Split(s, sep) == [""] + Split(s[1..], sep);
      assert s == "" + [sep] + s[1..];
    } else {
      var rest := Split(s[1..], sep);
      JoinSplit(s[1..], sep);
      var parts := [[s[0]] + rest[0]] + rest[1..];
      assert Split(s, sep) == parts;
      if |rest| == 1 {
        assert Join(parts, sep) == [s[0]] + rest[0];
      } else {
        assert parts[1..] == rest[1..];
        assert Join(rest, sep) == rest[0] + [sep] + Join(rest[1..], sep);
        assert Join(parts, sep) == [s[0]] + rest[0] + [sep] + Join(rest[1..], sep);
      }
      assert s == [s[0]] + s[1..];
    }
  }

  /** Splitting a joined list of separator-free pieces gives the pieces
      back. */
  lemma {:induction false} SplitJoin(parts: seq<string>, sep: char)
    requires |parts| >= 1
    requires forall i :: 0 <= i < |parts| ==> sep !in parts[i]
    ensures Split(Join(parts, sep), sep) == parts
  {
    if |parts| == 1 {
      SplitPieces(parts[0], sep);
    } else {
      SplitJoin(parts[1..], sep);
      SplitAfterSeparator(parts[0], sep, Join(parts[1..], sep));
      assert parts == [parts[0]] + parts[1..];
    }
  }

  /** A separator-free head followed by the separator splits off as one
      piece. */
  lemma {:induction false} SplitAfterSeparator(a: string, sep: char, b: string)
    requires sep !in a
    ensures Split(a + [sep] + b, sep) == [a] + Split(b, sep)
  {
    if a == [] {
      assert a + [sep] + b == [sep] + b;
    } else {
      SplitAfterSeparator(a[1..], sep, b);
      assert (a + [sep] + b)[1..] == a[1..] + [sep] + b;
      assert [a[0]] + a[1..] == a;
    }
  }

  /** Three separator-free pieces joined by the separator split back into
      them. */
  lemma SplitThree(a: string, b: string, c: string, sep: char)
    requires sep !in a && sep !in b && sep !in c
    ensures Split(a + [sep] + b + [sep] + c, sep) == [a, b, c]
  {
    SplitPieces(c, sep);
    SplitAfterSeparator(b, sep, c);
    SplitAfterSeparator(a, sep, b + [sep] + c);
    assert a + [sep] + b + [sep] + c == a + [sep] + (b + [sep] + c);
  }

  /** `parts[i]`: `undefined` past the end of the array. */
  function Field(parts: seq<string>, i: nat): (v: JsValue)
    ensures v.Undefined? <==> i >= |parts|
    ensures i < |parts| ==> v == Str(parts[i])
  {
    if i < |parts| then Str(parts[i]) else Undefined
  }
}

=== FILE: registrator.dfy ===
/** The reconciliation of registrator.js: for each parsed client, decide
    from the registry's service listing whether to register a service,
    and whether to pass the client's TTL check. The registry calls
    themselves are not modelled: a listing is an input, and so is the
    outcome of each registration, given per service name. What the model
    returns is the list of calls issued for each client. */
module Registrator {
  import opened JsText
  import opened StatusModel

  const OwnerTag := "openvpn-registrator"
  const ServicePrefix := "openvpn-client:"
  const CheckTtl := "120s"
  const CheckStatus := "passing"
  const CheckNotes := "Indicates whether or not the Dynamic Rig is connected to the VPN"

  /** An entry of the agent's service listing: its `Service` name and its
      `Tags`. */
  datatype Service = Service(id: string, service: string, tags: seq<string>)

  /** The `check` part of a registration. */
  datatype CheckDef = CheckDef(notes: string, ttl: string, status: string)

  /** The options passed to `service.register`. */
  datatype ServiceOptions = ServiceOptions(
    id: string, name: string, tags: seq<string>, address: JsValue, check: CheckDef)

  /** A registry call the reconciler issues. */
  datatype Action =
    | Register(options: ServiceOptions)
    | PassCheck(id: string, note: string)

  /** The service name of a client. The prefix is fixed, so the client's
      name can be read back from it: different clients never share a
      service. */
  function ServiceName(name: string): (r: string)
    ensures ServicePrefix <= r && r[|ServicePrefix|..] == name
  {
    ServicePrefix + name
  }

  /** The id of a client's TTL check: the id the agent gives the check of
      the service registered under ServiceName. */
  function CheckId(name: string): (r: string)
    ensures r == "service:" + ServiceName(name)
  {
    "service:openvpn-client:" + name
  }

  /** `tags.indexOf(tag)`: the first position of `tag`, or -1. */
  function IndexOf(tags: seq<string>, tag: string): (i: int)
    ensures i == -1 <==> tag !in tags
    ensures i != -1 ==> 0 <= i < |tags| && tags[i] == tag && tag !in tags[..i]
  {
    if tags == [] then -1
    else if tags[0] == tag then 0
    else
      var j := IndexOf(tags[1..], tag);
      if j == -1 then -1 else j + 1
  }

  /** The listed service carries the registrator's tag and has the given
      name. */
  predicate Owns(svc: Service, serviceName: string)
    // the source's test, `Tags.indexOf('openvpn-registrator') !== -1`
    ensures Owns(svc, serviceName) <==> IndexOf(svc.tags, OwnerTag) != -1 && svc.service == serviceName
  {
    OwnerTag in svc.tags && svc.service == serviceName
  }

  /** Some listed service is the registrator's own with that name. Only
      which services are listed matters, not where. */
  predicate Listed(services: seq<Service>, serviceName: string)
    ensures Listed(services, serviceName) <==> exists svc :: svc in services && Owns(svc, serviceName)
  {
    exists i :: 0 <= i < |services| && Owns(services[i], serviceName)
  }

  /** The options a registration sends for a client. */
  function RegisterOptions(client: ClientRecord): (o: ServiceOptions)
    ensures o.id == ServiceName(client.name) && o.name == ServiceName(client.name)
    ensures o.tags == [OwnerTag] && o.address == client.virtual
    ensures o.check.ttl == CheckTtl && o.check.status == CheckStatus
  {
    ServiceOptions(ServiceName(client.name), ServiceName(client.name), [OwnerTag], client.virtual,
      CheckDef(CheckNotes, CheckTtl, CheckStatus))
  }

  /** How the agent lists a service once it has been registered. */
  function AsListed(o: ServiceOptions): Service
  {
    Service(o.id, o.name, o.tags)
  }

  /** A registered service is found by the next listing for the same
      client and for no other: the registration and the presence test
      agree, which is what keeps a second pass from registering again. */
  lemma RegisteredFoundIff(client: ClientRecord, other: string)
    ensures Listed([AsListed(RegisterOptions(client))], ServiceName(other)) <==> other == client.name
  {
    var svc := AsListed(RegisterOptions(client));
    assert OwnerTag in svc.tags;
    if other == client.name {
      assert Owns([svc][0], ServiceName(other));
    }
  }

  /** The note sent with a check pass: the client's name, when it
      connected and when the routing table last saw it, one per line. */
  function CheckNote(client: ClientRecord): (note: string)
    ensures "Name: " + client.name + "\nConnected At: " <= note
    ensures note[|"Name: " + client.name + "\nConnected At: "|..]
      == Text(client.connected) + "\nUpdated At: " + Text(client.updated)
  {
    "Name: " + client.name + "\nConnected At: " + Text(client.connected) + "\nUpdated At: " + Text(client.updated)
  }

  /** The note can be read back: when the name and the two times hold no
      line break, its lines are exactly the name, the connection time and
      the last-update time, each after its label. */
  lemma {:induction false} CheckNoteLines(client: ClientRecord)
    requires '\n' !in client.name && '\n' !in Text(client.connected) && '\n' !in Text(client.updated)
    ensures Split(CheckNote(client), '\n')
      == ["Name: " + client.name, "Connected At: " + Text(client.connected), "Updated At: " + Text(client.updated)]
  {
    var name := "Name: " + client.name;
    var connected := "Connected At: " + Text(client.connected);
    var updated := "Updated At: " + Text(client.updated);
    NoteLabelsUnbroken();
    NoteIsThreeLines(client);
    SplitThree(name, connected, updated, '\n');
  }

  /** The note is its three labelled lines joined by line breaks. */
  lemma NoteIsThreeLines(client: ClientRecord)
    ensures CheckNote(client)
      == ("Name: " + client.name) + ['\n'] + ("Connected At: " + Text(client.connected)) + ['\n'] + ("Updated At: " + Text(client.updated))
  {
    assert "\nConnected At: " == ['\n'] + "Connected At: ";
    assert "\nUpdated At: " == ['\n'] + "Updated At: ";
  }

  /** No label of the note holds a line break. */
  lemma NoteLabelsUnbroken()
    ensures '\n' !in "Name: " && '\n' !in "Connected At: " && '\n' !in "Updated At: "
  {
  }

  /** `updateCheck`: pass the client's TTL check, with the note. */
  function UpdateCheck(client: ClientRecord): (a: Action)
    ensures a.PassCheck? && a.id == "service:" + ServiceName(client.name) && a.note == CheckNote(client)
  {
    PassCheck(CheckId(client.name), CheckNote(client))
  }

  /** The calls issued for one client, given whether its service was found
      and whether a registration would succeed. */
  function Plan(client: ClientRecord, found: bool, registerOk: bool): (actions: seq<Action>)
    // a client whose service is missing is registered first, with its options
    ensures !found <==> |actions| > 0 && actions[0] == Register(RegisterOptions(client))
    // nothing else is ever registered
    ensures forall i :: 0 < i < |actions| ==> !actions[i].Register?
    // the check is passed, once and last, iff the service was found or
    // the registration succeeded; never after a failed registration
    ensures UpdateCheck(client) in actions <==> found || registerOk
    ensures forall i :: 0 <= i < |actions| - 1 ==> actions[i] != UpdateCheck(client)
    ensures |actions| <= 2
    // and no other call is ever issued
    ensures forall a :: a in actions ==> a == Register(RegisterOptions(client)) || a == UpdateCheck(client)
  {
    if found then [UpdateCheck(client)]
    else if registerOk then [Register(RegisterOptions(client)), UpdateCheck(client)]
    else [Register(RegisterOptions(client))]
  }

  /** `registerClient`, once the listing has arrived: look for the
      client's service, then register it if absent, and pass the check if
      it was found or its registration succeeded. */
  method RegisterClient(client: ClientRecord, services: seq<Service>, registerOk: bool) returns (actions: seq<Action>)
    ensures actions == Plan(client, Listed(services, ServiceName(client.name)), registerOk)
  {
    var serviceName := ServiceName(client.name);
    var serviceFound := false;
    var i := 0;
    while i < |services|
      invariant 0 <= i <= |services|
      invariant serviceFound <==> exists j :: 0 <= j < i && Owns(services[j], serviceName)
    {
      var service := services[i];
      if IndexOf(service.tags, OwnerTag) != -1 && service.service == serviceName {
        serviceFound := true;
      }
      i := i + 1;
    }

    if !serviceFound {
      var serviceOpts := RegisterOptions(client);
      actions := [Register(serviceOpts)];
      if registerOk {
        actions := actions + [UpdateCheck(client)];
      }
    } else {
      actions := [UpdateCheck(client)];
    }
  }

  /** The calls of one pass, client by client, in the order of the parsed
      list; each client's outcome is looked up by its service name. */
  function Plans(clients: seq<ClientRecord>, services: seq<Service>, registerOk: string -> bool): (plans: seq<seq<Action>>)
    ensures |plans| == |clients|
    ensures forall i :: 0 <= i < |clients| ==>
      plans[i] == Plan(clients[i], Listed(services, ServiceName(clients[i].name)), registerOk(ServiceName(clients[i].name)))
  {
    if clients == [] then []
    else
      var last := clients[|clients| - 1];
      var serviceName := ServiceName(last.name);
      Plans(clients[..|clients| - 1], services, registerOk) + [Plan(last, Listed(services, serviceName), registerOk(serviceName))]
  }

  /** `handleStatus` as written: `status.clients.forEach(...)` throws when
      no `Common Name` line was read, because `clients` was never set.
      None stands for that exception. */
  function HandleStatusAsWritten(status: StatusObj, services: seq<Service>, registerOk: string -> bool): (r: Option<seq<seq<Action>>>)
    ensures r.None? <==> status.clients.None?
    ensures r.Some? ==> |r.value| == |status.clients.value|
  {
    match status.clients
    case None => None
    case Some(clients) => Some(Plans(clients, services, registerOk))
  }

  /** An empty status file, as read while the server rewrites it, makes
      the pass as written throw: the parse has no `clients`. */
  lemma EmptyLogThrows(services: seq<Service>, registerOk: string -> bool)
    ensures Parse([]).clients.None?
    ensures HandleStatusAsWritten(Parse([]), services, registerOk).None?
  {
    assert Run(Initial, []) == Initial;
  }

  /** More generally, a read whose lines hold no `Common Name` line, such
      as a file cut off before the client list's column header, leaves
      `clients` unset, so the pass as written throws. */
  lemma {:induction false} NoColumnHeaderThrows(lines: seq<string>, services: seq<Service>, registerOk: string -> bool)
    requires forall i :: 0 <= i < |lines| ==> !StartsWith(lines[i], "Common Name")
    ensures Parse(lines).clients.None?
    ensures HandleStatusAsWritten(Parse(lines), services, registerOk).None?
  {
    NoColumnHeaderKeepsClients(Initial, lines);
  }

  /** Without a `Common Name` line, `statusObj.clients` keeps its value. */
  lemma {:induction false} NoColumnHeaderKeepsClients(s: ParserState, lines: seq<string>)
    requires forall i :: 0 <= i < |lines| ==> !StartsWith(lines[i], "Common Name")
    ensures Run(s, lines).clients == s.clients && Run(s, lines).clientStart == s.clientStart
  {
    if lines != [] {
      var prefix := lines[..|lines| - 1];
      NoColumnHeaderKeepsClients(s, prefix);
      var p := Run(s, prefix);
      var line := lines[|lines| - 1];
      if SectionAfter(p.section, line) == Clients {
        assert ClientsLine(p.(section := Clients), line).clients == p.clients;
      }
    }
  }

  /** The clients of a parse, none when `clients` was never set. */
  function ClientsOf(status: StatusObj): seq<ClientRecord>
  {
    match status.clients
    case None => []
    case Some(clients) => clients
  }

  /** `handleStatus` with an absent client list read as an empty one: every
      parse, of a complete, empty or cut-off file, yields one plan per
      parsed client and nothing else. */
  function HandleStatus(status: StatusObj, services: seq<Service>, registerOk: string -> bool): (plans: seq<seq<Action>>)
    ensures |plans| == |ClientsOf(status)|
    ensures status.clients.Some? ==> Some(plans) == HandleStatusAsWritten(status, services, registerOk)
  {
    Plans(ClientsOf(status), services, registerOk)
  }

  /** A registration failure for one client changes nothing for any other:
      two passes whose outcomes agree on a client's service issue the same
      calls for that client. */
  lemma SiblingsIndependent(status: StatusObj, services: seq<Service>, ok1: string -> bool, ok2: string -> bool, i: nat)
    requires i < |ClientsOf(status)|
    requires ok1(ServiceName(ClientsOf(status)[i].name)) == ok2(ServiceName(ClientsOf(status)[i].name))
    ensures HandleStatus(status, services, ok1)[i] == HandleStatus(status, services, ok2)[i]
  {
  }

  /** The services a pass's successful registrations add to the listing. */
  function Registered(plans: seq<seq<Action>>, okFor: seq<bool>): seq<Service>
    requires |okFor| == |plans|
  {
    if plans == [] then []
    else
      var n := |plans| - 1;
      Registered(plans[..n], okFor[..n])
        + if okFor[n] && |plans[n]| > 0 && plans[n][0].Register? then [AsListed(plans[n][0].options)] else []
  }

  /** Once every client's service is listed as the registrator's own, a
      pass registers nothing and passes each client's check exactly once,
      whatever the registrations would do. */
  lemma {:induction false} ListedPassOnlyChecks(clients: seq<ClientRecord>, services: seq<Service>, registerOk: string -> bool)
    requires forall i :: 0 <= i < |clients| ==> AsListed(RegisterOptions(clients[i])) in services
    ensures forall i :: 0 <= i < |clients| ==> Plans(clients, services, registerOk)[i] == [UpdateCheck(clients[i])]
  {
    forall i | 0 <= i < |clients|
      ensures Listed(services, ServiceName(clients[i].name))
    {
      var svc := AsListed(RegisterOptions(clients[i]));
      var k :| 0 <= k < |services| && services[k] == svc;
      assert Owns(services[k], ServiceName(clients[i].name));
    }
  }

  /** Reconciling the same parse twice: if every registration of the first
      pass succeeds and the agent then lists the services it registered,
      the second pass registers nothing and passes every check once. */
  lemma {:induction false} SecondPassRegistersNothing(status: StatusObj, services: seq<Service>, secondOk: string -> bool)
    ensures var clients := ClientsOf(status);
      var first := HandleStatus(status, services, _ => true);
      var after := services + Registered(first, seq(|first|, _ => true));
      forall i :: 0 <= i < |clients| ==> HandleStatus(status, after, secondOk)[i] == [UpdateCheck(clients[i])]
  {
    var clients := ClientsOf(status);
    var first := HandleStatus(status, services, _ => true);
    var okFor := seq(|first|, _ => true);
    forall i | 0 <= i < |clients|
      ensures Listed(services + Registered(first, okFor), ServiceName(clients[i].name))
    {
      ListedAfterFirstPass(clients[i], i, first, okFor, services);
    }
  }

  /** After the first pass, a client's service is listed: it either was
      already, or the pass registered it. */
  lemma ListedAfterFirstPass(client: ClientRecord, i: nat, first: seq<seq<Action>>, okFor: seq<bool>, services: seq<Service>)
    requires |okFor| == |first| && i < |first| && okFor[i]
    requires first[i] == Plan(client, Listed(services, ServiceName(client.name)), true)
    ensures Listed(services + Registered(first, okFor), ServiceName(client.name))
  {
    var after := services + Registered(first, okFor);
    if !Listed(services, ServiceName(client.name)) {
      // registered by the first pass, and listed once registered
      RegisteredHolds(first, okFor, i);
      var svc := AsListed(RegisterOptions(client));
      assert svc in after && Owns(svc, ServiceName(client.name));
    } else {
      // already the registrator's own, and still listed
      var k :| 0 <= k < |services| && Owns(services[k], ServiceName(client.name));
      assert after[k] == services[k];
    }
  }

  /** The service of each successful registration is in Registered. */
  lemma {:induction false} RegisteredHolds(plans: seq<seq<Action>>, okFor: seq<bool>, i: nat)
    requires |okFor| == |plans| && i < |plans|
    requires okFor[i] && |plans[i]| > 0 && plans[i][0].Register?
    ensures AsListed(plans[i][0].options) in Registered(plans, okFor)
  {
    var n := |plans| - 1;
    if i < n {
      RegisteredHolds(plans[..n], okFor[..n], i);
    }
  }
}

=== FILE: status_model.dfy ===
/** The status-log parser of registrator.js as pure functions: the per-line
    handler (`Step`), a whole read (`Run`), and the end-of-input flattening
    (`EndStatus`). The class in status_parser.dfy is proved to compute
    exactly these. */
module StatusModel {
  import opened JsText

  const ClientListHeader := "OpenVPN CLIENT LIST"
  const RoutingHeader := "ROUTING TABLE"
  const StatsHeader := "GLOBAL STATS"

  /** The closure variable `state`: null before the first section header. */
  datatype Section = NoSection | Clients | Routes | Stats

  /** One entry of `clientObj`. `name` is field 0 of a client row, which
      `split` always yields; every other field may be `undefined`, and
      `virtual` and `updated` start out `null`. */
  datatype ClientRecord = ClientRecord(
    name: string,
    address: JsValue,
    virtual: JsValue,
    received: JsValue,
    sent: JsValue,
    connected: JsValue,
    updated: JsValue)

  /** The object handed to the callback: `updated` is `undefined` until an
      `Updated` line is read, `clients` is absent (None) until a
      `Common Name` line is read. */
  datatype StatusObj = StatusObj(updated: JsValue, clients: Option<seq<ClientRecord>>)

  /** Everything the line handler reads and writes. `clientObj` is an
      insertion-ordered dictionary: `order` lists its keys in the order
      they were first added. */
  datatype ParserState = ParserState(
    section: Section,
    clientStart: bool,
    routesStart: bool,
    order: seq<string>,
    clientObj: map<string, ClientRecord>,
    updated: JsValue,
    clients: Option<seq<ClientRecord>>)

  /** The variables as `parseStatus` initialises them. */
  const Initial := ParserState(NoSection, false, false, [], map[], Undefined, None)

  predicate Distinct(keys: seq<string>)
  {
    forall i, j :: 0 <= i < j < |keys| ==> keys[i] != keys[j]
  }

  /** What holds between lines: the dictionary's key order lists each key
      once, each record is stored under its own name, `statusObj.clients`
      exists exactly once a `Common Name` line has been seen and is still
      empty, and records exist only after that line. */
  ghost predicate Valid(s: ParserState)
  {
    && Distinct(s.order)
    && (forall k :: k in s.clientObj <==> k in s.order)
    && (forall k :: k in s.clientObj ==> s.clientObj[k].name == k)
    && (s.clientStart <==> s.clients.Some?)
    && (s.clients.Some? ==> s.clients.value == [])
    && (|s.order| > 0 ==> s.clientStart)
  }

  predicate IsHeader(line: string)
  {
    line == ClientListHeader || line == RoutingHeader || line == StatsHeader
  }

  /** A line that splits into several pieces holds a comma, which no
      section header does, so it is never a header. */
  lemma SeveralPiecesNotHeader(line: string)
    requires |Split(line, ',')| > 1
    ensures !IsHeader(line)
  {
    SplitPieces(line, ',');
    assert ',' !in ClientListHeader && ',' !in RoutingHeader && ',' !in StatsHeader;
  }

  /** The section a line leaves the parser in: a header line switches,
      every other line keeps the current section. */
  function SectionAfter(section: Section, line: string): (r: Section)
    ensures !IsHeader(line) ==> r == section
    ensures line == ClientListHeader <==> r == Clients && IsHeader(line)
    ensures line == RoutingHeader <==> r == Routes && IsHeader(line)
    ensures line == StatsHeader <==> r == Stats && IsHeader(line)
  {
    if line == ClientListHeader then Clients
    else if line == RoutingHeader then Routes
    else if line == StatsHeader then Stats
    else section
  }

  /** The record a client row builds: fields 0 to 4 are name, real
      address, bytes received, bytes sent and connected-since. */
  function ClientRow(parts: seq<string>): (r: ClientRecord)
    requires |parts| >= 1
    ensures r.name == parts[0]
    ensures r.virtual == Null && r.updated == Null
    ensures Field(parts, 1) == r.address && Field(parts, 2) == r.received
    ensures Field(parts, 3) == r.sent && Field(parts, 4) == r.connected
  {
    ClientRecord(parts[0], Field(parts, 1), Null, Field(parts, 2), Field(parts, 3), Field(parts, 4), Null)
  }

  /** `clientObj[rec.name] = rec`: a new key goes to the end of the key
      order, an existing key keeps its place. */
  function Upsert(s: ParserState, rec: ClientRecord): (r: ParserState)
    ensures r.clientObj == s.clientObj[rec.name := rec]
    ensures rec.name in s.clientObj ==> r.order == s.order
    ensures rec.name !in s.clientObj ==> r.order == s.order + [rec.name]
    ensures r == s.(clientObj := r.clientObj, order := r.order)
  {
    var order := if rec.name in s.clientObj then s.order else s.order + [rec.name];
    s.(clientObj := s.clientObj[rec.name := rec], order := order)
  }

  /** A line handled in the clients section. */
  function ClientsLine(s: ParserState, line: string): (r: ParserState)
    requires s.section == Clients
    // only an `Updated` line changes `statusObj.updated`, to its second field
    ensures StartsWith(line, "Updated") ==> r.updated == Field(Split(line, ','), 1)
    ensures !StartsWith(line, "Updated") ==> r.updated == s.updated
    // a `Common Name` line opens the data rows, empties `statusObj.clients`
    // and leaves the dictionary alone
    ensures StartsWith(line, "Common Name") ==>
      r == s.(clientStart := true, clients := Some([]), updated := r.updated)
    // after it, every line is a row upserted under its field 0, last write wins
    ensures !StartsWith(line, "Common Name") && s.clientStart ==>
      var name := Split(line, ',')[0];
      && r.clientObj == s.clientObj[name := ClientRow(Split(line, ','))]
      && r.order == (if name in s.clientObj then s.order else s.order + [name])
      && r == s.(clientObj := r.clientObj, order := r.order, updated := r.updated)
    // before it, no row is built
    ensures !StartsWith(line, "Common Name") && !s.clientStart ==> r == s.(updated := r.updated)
  {
    var s1 := if StartsWith(line, "Updated") then s.(updated := Field(Split(line, ','), 1)) else s;
    if StartsWith(line, "Common Name") then
      s1.(clientStart := true, clients := Some([]))
    else if s1.clientStart then
      Upsert(s1, ClientRow(Split(line, ',')))
    else
      s1
  }

  /** A line handled in the routes section. */
  function RoutesLine(s: ParserState, line: string): (r: ParserState)
    requires s.section == Routes
    // the `Virtual Address` header only opens the data rows
    ensures StartsWith(line, "Virtual Address") ==> r == s.(routesStart := true)
    // a row touches the record named by its field 1, and only if it exists;
    // `obj[v]` converts `v` to a key as `+` converts it to text
    ensures !StartsWith(line, "Virtual Address") ==>
      var parts := Split(line, ',');
      var key := Text(Field(parts, 1));
      if s.routesStart && key in s.clientObj then
        r == s.(clientObj := s.clientObj[key := s.clientObj[key].(virtual := Str(parts[0]), updated := Field(parts, 3))])
      else
        r == s
    // routes lines never add or remove keys
    ensures r.order == s.order && r.clientObj.Keys == s.clientObj.Keys
  {
    if StartsWith(line, "Virtual Address") then
      s.(routesStart := true)
    else if s.routesStart then
      var parts := Split(line, ',');
      var key := Text(Field(parts, 1));
      if key in s.clientObj then
        var rec := s.clientObj[key];
        s.(clientObj := s.clientObj[key := rec.(virtual := Str(parts[0]), updated := Field(parts, 3))])
      else
        s
    else
      s
  }

  /** The `line` handler: switch section on a header, then handle the same
      line in the (possibly new) section. */
  function Step(s: ParserState, line: string): (r: ParserState)
    ensures r.section == SectionAfter(s.section, line)
    // nothing happens before the first header
    ensures s.section == NoSection && !IsHeader(line) ==> r == s
    // the stats section only records that it is current
    ensures r.section == Stats ==> r == s.(section := Stats)
    // keys are only ever added, one at a time, at the end
    ensures s.order <= r.order && |r.order| <= |s.order| + 1
    ensures s.clientObj.Keys <= r.clientObj.Keys
    // only the clients section changes `updated`, `clients` or `clientStart`
    ensures r.section != Clients ==>
      r.updated == s.updated && r.clients == s.clients && r.clientStart == s.clientStart
    // only the routes section changes `routesStart`
    ensures r.section != Routes ==> r.routesStart == s.routesStart
    // neither flag is ever cleared
    ensures s.clientStart ==> r.clientStart
    ensures s.routesStart ==> r.routesStart
  {
    var section := SectionAfter(s.section, line);
    var s1 := s.(section := section);
    match section
    case NoSection => s1
    case Clients => ClientsLine(s1, line)
    case Routes => RoutesLine(s1, line)
    case Stats => s1
  }

  /** The line handler keeps Valid. */
  lemma StepValid(s: ParserState, line: string)
    requires Valid(s)
    ensures Valid(Step(s, line))
  {
    var s1 := s.(section := SectionAfter(s.section, line));
    assert Valid(s1);
    if s1.section == Clients {
      ClientsLineValid(s1, line);
    } else if s1.section == Routes {
      RoutesLineValid(s1, line);
    }
  }

  lemma ClientsLineValid(s: ParserState, line: string)
    requires Valid(s) && s.section == Clients
    ensures Valid(ClientsLine(s, line))
  {
  }

  lemma RoutesLineValid(s: ParserState, line: string)
    requires Valid(s) && s.section == Routes
    ensures Valid(RoutesLine(s, line))
  {
  }

  /** The handler run over the lines read so far, in order. Keys are never
      removed or reordered, and neither flag is ever cleared. */
  function Run(s: ParserState, lines: seq<string>): (r: ParserState)
    ensures s.order <= r.order && s.clientObj.Keys <= r.clientObj.Keys
    ensures s.clientStart ==> r.clientStart
    ensures s.routesStart ==> r.routesStart
  {
    if lines == [] then s else Step(Run(s, lines[..|lines| - 1]), lines[|lines| - 1])
  }

  /** The records in key order. */
  function Flatten(order: seq<string>, clientObj: map<string, ClientRecord>): (r: seq<ClientRecord>)
    requires forall k :: k in order ==> k in clientObj
    ensures |r| == |order|
    ensures forall i :: 0 <= i < |order| ==> r[i] == clientObj[order[i]]
  {
    if order == [] then []
    else Flatten(order[..|order| - 1], clientObj) + [clientObj[order[|order| - 1]]]
  }

  /** The `end` handler: every record is pushed onto `statusObj.clients`,
      in key order. The list exists exactly when a `Common Name` line
      created it, and then holds the record of each key, in key order. */
  function EndStatus(s: ParserState): (status: StatusObj)
    requires Valid(s)
    ensures status.updated == s.updated
    ensures status.clients.Some? <==> s.clientStart
    ensures status.clients.Some? ==>
      && |status.clients.value| == |s.order|
      && forall i :: 0 <= i < |s.order| ==> status.clients.value[i] == s.clientObj[s.order[i]]
  {
    StatusObj(s.updated, if s.clients.Some? then Some(s.clients.value + Flatten(s.order, s.clientObj)) else None)
  }

  /** One complete read of the status file: the snapshot holds the last
      `Updated` stamp and, once a `Common Name` line was read, the records
      in first-insertion order. */
  function Parse(lines: seq<string>): (status: StatusObj)
    ensures lines == [] ==> status == StatusObj(Undefined, None)
    ensures status.clients.Some? <==> Run(Initial, lines).clientStart
    ensures status.clients.Some? ==>
      var r := Run(Initial, lines);
      && |status.clients.value| == |r.order|
      && forall i :: 0 <= i < |r.order| ==> r.order[i] in r.clientObj && status.clients.value[i] == r.clientObj[r.order[i]]
  {
    RunValid(Initial, lines);
    EndStatus(Run(Initial, lines))
  }

  /** The handler keeps Valid across any number of lines. */
  lemma {:induction false} RunValid(s: ParserState, lines: seq<string>)
    requires Valid(s)
    ensures Valid(Run(s, lines))
  {
    if lines != [] {
      RunValid(s, lines[..|lines| - 1]);
      StepValid(Run(s, lines[..|lines| - 1]), lines[|lines| - 1]);
    }
  }
}

=== FILE: status_parser.dfy ===
/** `parseStatus` as the source writes it: closure variables updated in
    place by a line handler, and an end handler that loops over the keys
    of `clientObj`. Every method is proved to do what the functions of
    StatusModel say. */
module StatusParsing {
  import opened JsText
  import opened StatusModel

  class StatusParser {
    var state: Section
    var clientStart: bool
    var routesStart: bool
    /** `Object.keys(clientObj)`: the keys in first-insertion order. */
    var keys: seq<string>
    var clientObj: map<string, ClientRecord>
    /** `statusObj.updated` and `statusObj.clients`. */
    var updated: JsValue
    var clients: Option<seq<ClientRecord>>

    function State(): ParserState
      reads this
    {
      ParserState(state, clientStart, routesStart, keys, clientObj, updated, clients)
    }

    function Status(): StatusObj
      reads this
    {
      StatusObj(updated, clients)
    }

    ghost predicate Valid()
      reads this
    {
      StatusModel.Valid(State())
    }

    constructor ()
      ensures State() == Initial && Valid()
    {
      state := NoSection;
      clientStart := false;
      routesStart := false;
      keys := [];
      clientObj := map[];
      updated := Undefined;
      clients := None;
    }

    /** The `line` handler. */
    method ProcessLine(line: string)
      requires Valid()
      modifies this
      ensures State() == Step(old(State()), line)
      ensures Valid()
    {
      ghost var before := State();
      StepValid(before, line);
      if line == ClientListHeader {
        state := Clients;
      } else if line == RoutingHeader {
        state := Routes;
      } else if line == StatsHeader {
        state := Stats;
      }

      ghost var entered := before.(section := state);
      assert state == SectionAfter(before.section, line);
      if state == NoSection {
        assert Step(before, line) == entered;
        return;
      }

      if state == Clients {
        if StartsWith(line, "Updated") {
          updated := Field(Split(line, ','), 1);
        }

        if StartsWith(line, "Common Name") {
          clientStart := true;
          clients := Some([]);
          assert State() == ClientsLine(entered, line) == Step(before, line);
          return;
        }

        ghost var updatedSet := State();
        if clientStart {
          var clientParts := Split(line, ',');
          var name := clientParts[0];
          if name !in clientObj {
            keys := keys + [name];
          }
          clientObj := clientObj[name := ClientRow(clientParts)];
          assert State() == Upsert(updatedSet, ClientRow(clientParts));
        }
        assert State() == ClientsLine(entered, line) == Step(before, line);
      } else if state == Routes {
        if StartsWith(line, "Virtual Address") {
          routesStart := true;
          assert State() == RoutesLine(entered, line) == Step(before, line);
          return;
        }

        if routesStart {
          var routesParts := Split(line, ',');
          var key := Text(Field(routesParts, 1));
          if key in clientObj {
            var rec := clientObj[key];
            clientObj := clientObj[key := rec.(virtual := Str(routesParts[0]), updated := Field(routesParts, 3))];
          }
        }
        assert State() == RoutesLine(entered, line) == Step(before, line);
      } else {
        assert State() == entered == Step(before, line);
      }
    }

    /** The `end` handler: push every record onto `statusObj.clients`, in
        key order. Nothing else changes. */
    method Finish()
      requires Valid()
      modifies this
      ensures Status() == EndStatus(old(State()))
      ensures state == old(state) && clientStart == old(clientStart) && routesStart == old(routesStart)
      ensures keys == old(keys) && clientObj == old(clientObj)
    {
      var i := 0;
      while i < |keys|
        invariant 0 <= i <= |keys|
        invariant forall k :: k in keys ==> k in clientObj
        invariant clients.Some? <==> old(clients).Some?
        invariant clients.Some? ==> clients.value == old(clients).value + Flatten(keys[..i], clientObj)
        invariant state == old(state) && clientStart == old(clientStart) && routesStart == old(routesStart)
        invariant keys == old(keys) && clientObj == old(clientObj) && updated == old(updated)
      {
        var key := keys[i];
        assert keys[..i + 1][..i] == keys[..i];
        assert Flatten(keys[..i + 1], clientObj) == Flatten(keys[..i], clientObj) + [clientObj[key]];
        clients := Some(clients.value + [clientObj[key]]);
        i := i + 1;
      }
      assert keys[..i] == keys;
      assert Status() == StatusObj(old(updated), if old(clients).Some? then Some(old(clients).value + Flatten(old(keys), old(clientObj))) else None);
    }
  }

  /** One read of the status file, already split into lines: a fresh
      parser, the line handler on every line in order, then the end
      handler. */
  method ParseStatus(lines: seq<string>) returns (status: StatusObj)
    ensures status == Parse(lines)
  {
    var parser := new StatusParser();
    var i := 0;
    while i < |lines|
      invariant 0 <= i <= |lines|
      invariant parser.Valid()
      invariant parser.State() == Run(Initial, lines[..i])
    {
      assert lines[..i + 1][..i] == lines[..i];
      parser.ProcessLine(lines[i]);
      i := i + 1;
    }
    assert lines[..i] == lines;
    parser.Finish();
    status := parser.Status();
  }
}

=== FILE: status_properties.dfy ===
/** What a whole read of the status log guarantees, proved about the
    functions of StatusModel by induction over the lines read. */
module StatusProperties {
  import opened JsText
  import opened StatusModel

  predicate NoHeaders(lines: seq<string>)
  {
    forall i :: 0 <= i < |lines| ==> !IsHeader(lines[i])
  }

  /** Lines before the first section header change nothing. */
  lemma {:induction false} NoSectionRunInert(s: ParserState, lines: seq<string>)
    requires s.section == NoSection && NoHeaders(lines)
    ensures Run(s, lines) == s
  {
    if lines != [] {
      NoSectionRunInert(s, lines[..|lines| - 1]);
    }
  }

  /** Lines of the stats section change nothing until the next header. */
  lemma {:induction false} StatsRunInert(s: ParserState, lines: seq<string>)
    requires s.section == Stats && NoHeaders(lines)
    ensures Run(s, lines) == s
  {
    if lines != [] {
      StatsRunInert(s, lines[..|lines| - 1]);
    }
  }

  /** The fields a client row sets and the routing table never touches. */
  predicate SameRowData(a: ClientRecord, b: ClientRecord)
  {
    a.name == b.name && a.address == b.address && a.received == b.received
    && a.sent == b.sent && a.connected == b.connected
  }

  /** Lines of the routes section, up to the next header, keep the key set,
      the key order, everything a client row set and all of `statusObj`. */
  lemma {:induction false} RoutesRunKeepsKeys(s: ParserState, lines: seq<string>)
    requires s.section == Routes && NoHeaders(lines)
    ensures var r := Run(s, lines);
      && r.section == Routes
      && r.order == s.order && r.clientObj.Keys == s.clientObj.Keys
      && r.updated == s.updated && r.clients == s.clients && r.clientStart == s.clientStart
      && forall k :: k in s.clientObj ==> SameRowData(s.clientObj[k], r.clientObj[k])
  {
    if lines != [] {
      var prefix := lines[..|lines| - 1];
      RoutesRunKeepsKeys(s, prefix);
      var p := Run(s, prefix);
      var r := Step(p, lines[|lines| - 1]);
      forall k | k in s.clientObj
        ensures SameRowData(s.clientObj[k], r.clientObj[k])
      {
        assert SameRowData(p.clientObj[k], r.clientObj[k]);
      }
    }
  }

  /** Without an `Updated` line in the clients section, `statusObj.updated`
      keeps its value. */
  lemma {:induction false} UpdatedNeedsUpdatedLine(s: ParserState, lines: seq<string>)
    requires forall i :: 0 <= i < |lines| ==> !StartsWith(lines[i], "Updated")
    ensures Run(s, lines).updated == s.updated
  {
    if lines != [] {
      UpdatedNeedsUpdatedLine(s, lines[..|lines| - 1]);
    }
  }

  /** The key order only grows at its end: whatever was inserted after
      reading some of the lines keeps its position after reading more. */
  lemma {:induction false} RunOrderGrows(s: ParserState, lines: seq<string>, n: nat)
    requires n <= |lines|
    ensures Run(s, lines[..n]).order <= Run(s, lines).order
    ensures Run(s, lines[..n]).clientObj.Keys <= Run(s, lines).clientObj.Keys
  {
    if n < |lines| {
      var prefix := lines[..|lines| - 1];
      assert prefix[..n] == lines[..n];
      RunOrderGrows(s, prefix, n);
    } else {
      assert lines[..n] == lines;
    }
  }

  /** The line is taken as a client data row: it is read in the clients
      section, after a `Common Name` line, and is not one itself. */
  predicate IsClientRow(s: ParserState, line: string)
  {
    SectionAfter(s.section, line) == Clients && s.clientStart && !StartsWith(line, "Common Name")
  }

  /** The names (field 0) of the lines taken as client data rows. */
  ghost function RowNames(s: ParserState, lines: seq<string>): set<string>
  {
    if lines == [] then {}
    else
      var prefix := lines[..|lines| - 1];
      var line := lines[|lines| - 1];
      RowNames(s, prefix) + if IsClientRow(Run(s, prefix), line) then {Split(line, ',')[0]} else {}
  }

  /** The dictionary's keys are exactly the keys it started with plus the
      names of the client data rows read: no key is lost, none appears from
      elsewhere. */
  lemma {:induction false} KeysAreRowNames(s: ParserState, lines: seq<string>)
    ensures Run(s, lines).clientObj.Keys == s.clientObj.Keys + RowNames(s, lines)
  {
    if lines != [] {
      var prefix := lines[..|lines| - 1];
      KeysAreRowNames(s, prefix);
      var p := Run(s, prefix);
      var line := lines[|lines| - 1];
      var section := SectionAfter(p.section, line);
      if section == Clients {
        assert Step(p, line) == ClientsLine(p.(section := section), line);
      } else if section == Routes {
        assert Step(p, line) == RoutesLine(p.(section := section), line);
      }
    }
  }

  /** A sequence without repetitions has as many elements as it has
      distinct values. */
  lemma {:induction false} DistinctCard(order: seq<string>)
    requires Distinct(order)
    ensures |set k | k in order| == |order|
  {
    if order != [] {
      var prefix := order[..|order| - 1];
      var last := order[|order| - 1];
      DistinctCard(prefix);
      assert (set k | k in order) == (set k | k in prefix) + {last};
      assert last !in (set k | k in prefix);
    }
  }

  /** A sequence of distinct keys that lists exactly the keys of a map is
      as long as the map is large. */
  lemma DistinctKeysCount(order: seq<string>, m: map<string, ClientRecord>)
    requires Distinct(order)
    requires forall k :: k in m <==> k in order
    ensures |m| == |order|
  {
    DistinctCard(order);
    assert m.Keys == set k | k in order;
  }

  /** The names of a list of records, in order. */
  function Names(cs: seq<ClientRecord>): (names: seq<string>)
    ensures |names| == |cs| && forall i :: 0 <= i < |cs| ==> names[i] == cs[i].name
  {
    seq(|cs|, i requires 0 <= i < |cs| => cs[i].name)
  }

  /** The end handler pushes one record per key, in key order, each the
      dictionary's record for that key; `statusObj.clients` exists whenever
      there is a record to push. */
  lemma EndStatusOneEntryPerKey(s: ParserState)
    requires Valid(s)
    ensures var status := EndStatus(s);
      && (|s.clientObj| > 0 ==> status.clients.Some?)
      && (status.clients.Some? ==>
        var cs := status.clients.value;
        && |cs| == |s.clientObj|
        && Names(cs) == s.order
        && Distinct(Names(cs))
        && (forall i :: 0 <= i < |cs| ==> cs[i].name in s.clientObj && cs[i] == s.clientObj[cs[i].name]))
  {
    DistinctKeysCount(s.order, s.clientObj);
    if s.clients.Some? {
      var cs := EndStatus(s).clients.value;
      var flat := Flatten(s.order, s.clientObj);
      assert cs == s.clients.value + flat;
      assert cs == flat;
      forall i | 0 <= i < |cs|
        ensures Names(cs)[i] == s.order[i]
        ensures cs[i].name in s.clientObj && cs[i] == s.clientObj[cs[i].name]
      {
        assert s.order[i] in s.order;
        assert cs[i] == s.clientObj[s.order[i]];
      }
      assert Names(cs) == s.order;
    }
  }

  /** At end of input `statusObj.clients` holds exactly one record per
      distinct name ever read from a client row, in first-insertion order
      (the dictionary's key order, which RunOrderGrows shows only grows at
      its end), and it exists whenever any client row was read. */
  lemma ParseOneEntryPerName(lines: seq<string>)
    ensures var status := Parse(lines);
      && (|RowNames(Initial, lines)| > 0 ==> status.clients.Some?)
      && (status.clients.Some? ==>
        var cs := status.clients.value;
        && |cs| == |RowNames(Initial, lines)|
        && (forall n :: n in Names(cs) <==> n in RowNames(Initial, lines))
        && Distinct(Names(cs))
        && Names(cs) == Run(Initial, lines).order)
  {
    var st := Run(Initial, lines);
    RunValid(Initial, lines);
    KeysAreRowNames(Initial, lines);
    EndStatusOneEntryPerKey(st);
    assert st.clientObj.Keys == RowNames(Initial, lines);
  }

  /** Reading `a` then `b` is reading `a + b`. */
  lemma {:induction false} RunAppend(s: ParserState, a: seq<string>, b: seq<string>)
    ensures Run(s, a + b) == Run(Run(s, a), b)
  {
    if b != [] {
      RunAppend(s, a, b[..|b| - 1]);
      assert (a + b)[..|a + b| - 1] == a + b[..|b| - 1];
    } else {
      assert a + b == a;
    }
  }

  lemma RunSnoc(s: ParserState, lines: seq<string>, line: string)
    ensures Run(s, lines + [line]) == Step(Run(s, lines), line)
  {
    assert (lines + [line])[..|lines|] == lines;
  }

  /** Reading three lines is three steps. */
  lemma RunThree(s: ParserState, a: string, b: string, c: string)
    ensures Run(s, [a, b, c]) == Step(Step(Step(s, a), b), c)
  {
    RunSnoc(s, [], a);
    assert [] + [a] == [a];
    RunSnoc(s, [a], b);
    assert [a] + [b] == [a, b];
    RunSnoc(s, [a, b], c);
    assert [a, b] + [c] == [a, b, c];
  }

  /** A routes row with no second field looks up the key "undefined": it
      changes exactly the record of a client named `undefined`, setting its
      virtual address to the whole line and its last reference to
      `undefined`, and changes nothing when there is no such client. */
  lemma MissingKeyFieldHitsUndefined(s: ParserState, line: string)
    requires s.section == Routes && s.routesStart
    requires !StartsWith(line, "Virtual Address") && |Split(line, ',')| < 2
    ensures "undefined" in s.clientObj ==>
      RoutesLine(s, line)
        == s.(clientObj := s.clientObj["undefined" := s.clientObj["undefined"].(virtual := Str(line), updated := Undefined)])
    ensures "undefined" !in s.clientObj ==> RoutesLine(s, line) == s
  {
    var parts := Split(line, ',');
    JoinSplit(line, ',');
    assert parts == [parts[0]];
    assert Field(parts, 1) == Undefined;
  }

  /** The client-list part of the one-client log below: header, `Updated` line
      and column header. */
  lemma ClientListOpened(stamp: string, clientHeader: string)
    requires StartsWith(clientHeader, "Common Name") && ',' !in stamp
    ensures Run(Initial, [ClientListHeader, "Updated," + stamp, clientHeader])
      == Initial.(section := Clients, updated := Str(stamp), clientStart := true, clients := Some([]))
  {
    SplitJoin(["Updated", stamp], ',');
    assert Join(["Updated", stamp], ',') == "Updated," + stamp;
    assert clientHeader[0] == 'C';
    var s1 := Initial.(section := Clients);
    var s2 := s1.(updated := Str(stamp));
    assert Step(Initial, ClientListHeader) == s1;
    assert Step(s1, "Updated," + stamp) == s2;
    assert Step(s2, clientHeader) == s2.(clientStart := true, clients := Some([]));
    RunThree(Initial, ClientListHeader, "Updated," + stamp, clientHeader);
  }

  /** A client row read into an empty dictionary, once the column header
      has been seen, becomes its only record. */
  lemma FirstClientRow(s: ParserState, line: string)
    requires s.section == Clients && s.clientStart && s.clientObj == map[] && s.order == []
    requires |Split(line, ',')| > 1
    requires !StartsWith(line, "Updated") && !StartsWith(line, "Common Name")
    ensures Step(s, line) == s.(order := [Split(line, ',')[0]], clientObj := map[Split(line, ',')[0] := ClientRow(Split(line, ','))])
  {
    SeveralPiecesNotHeader(line);
  }

  /** The routing-table part of the one-client log below: header and column
      header. */
  lemma RoutingTableOpened(s: ParserState, routesHeader: string)
    requires StartsWith(routesHeader, "Virtual Address") && !s.routesStart
    ensures Run(s, [RoutingHeader, routesHeader]) == s.(section := Routes, routesStart := true)
  {
    assert routesHeader[0] == 'V';
    var s5 := s.(section := Routes);
    assert Step(s, RoutingHeader) == s5;
    assert Step(s5, routesHeader) == s5.(routesStart := true);
    RunSnoc(s, [], RoutingHeader);
    assert [] + [RoutingHeader] == [RoutingHeader];
    RunSnoc(s, [RoutingHeader], routesHeader);
    assert [RoutingHeader] + [routesHeader] == [RoutingHeader, routesHeader];
  }

  /** A routing row naming an existing client sets that client's virtual
      address and last reference. */
  lemma RouteRow(s: ParserState, line: string)
    requires s.section == Routes && s.routesStart
    requires |Split(line, ',')| == 4 && Split(line, ',')[1] in s.clientObj
    requires !StartsWith(line, "Virtual Address")
    ensures var parts := Split(line, ',');
      Step(s, line)
        == s.(clientObj := s.clientObj[parts[1] := s.clientObj[parts[1]].(virtual := Str(parts[0]), updated := Str(parts[3]))])
  {
    SeveralPiecesNotHeader(line);
  }

  /** The client list of the one-client log below: header, `Updated` line,
      column header and one client row. */
  lemma OneClientListed(
    stamp: string, clientHeader: string,
    name: string, address: string, received: string, sent: string, connected: string)
    requires StartsWith(clientHeader, "Common Name")
    requires ',' !in stamp && ',' !in name && ',' !in address && ',' !in received
    requires ',' !in sent && ',' !in connected
    requires var row := Join([name, address, received, sent, connected], ',');
      !StartsWith(row, "Updated") && !StartsWith(row, "Common Name")
    ensures Run(Initial, [ClientListHeader, "Updated," + stamp, clientHeader] + [Join([name, address, received, sent, connected], ',')])
      == Initial.(section := Clients, updated := Str(stamp), clientStart := true, clients := Some([]),
        order := [name], clientObj := map[name := ClientRow([name, address, received, sent, connected])])
  {
    var row := [name, address, received, sent, connected];
    var listOpened := [ClientListHeader, "Updated," + stamp, clientHeader];
    var s3 := Initial.(section := Clients, updated := Str(stamp), clientStart := true, clients := Some([]));
    ClientListOpened(stamp, clientHeader);
    SplitJoin(row, ',');
    FirstClientRow(s3, Join(row, ','));
    RunSnoc(Initial, listOpened, Join(row, ','));
  }

  /** The routing table of the one-client log below: header, column header and
      one row naming an existing client. */
  lemma OneRouteRun(s: ParserState, routesHeader: string, virtual: string, name: string, realAddress: string, lastRef: string)
    requires StartsWith(routesHeader, "Virtual Address") && !s.routesStart && name in s.clientObj
    requires ',' !in virtual && ',' !in name && ',' !in realAddress && ',' !in lastRef
    requires !StartsWith(Join([virtual, name, realAddress, lastRef], ','), "Virtual Address")
    ensures Run(s, [RoutingHeader, routesHeader] + [Join([virtual, name, realAddress, lastRef], ',')])
      == s.(section := Routes, routesStart := true,
            clientObj := s.clientObj[name := s.clientObj[name].(virtual := Str(virtual), updated := Str(lastRef))])
  {
    var route := [virtual, name, realAddress, lastRef];
    var s6 := s.(section := Routes, routesStart := true);
    RoutingTableOpened(s, routesHeader);
    SplitFour(virtual, name, realAddress, lastRef);
    RouteRow(s6, Join(route, ','));
    RunSnoc(s, [RoutingHeader, routesHeader], Join(route, ','));
  }

  /** A routing row of four comma-free fields splits back into them. */
  lemma SplitFour(virtual: string, name: string, realAddress: string, lastRef: string)
    requires ',' !in virtual && ',' !in name && ',' !in realAddress && ',' !in lastRef
    ensures Split(Join([virtual, name, realAddress, lastRef], ','), ',') == [virtual, name, realAddress, lastRef]
  {
    var route := [virtual, name, realAddress, lastRef];
    assert forall i :: 0 <= i < |route| ==> ',' !in route[i];
    SplitJoin(route, ',');
  }

  /** The state after the lines of the one-client log below. */
  lemma OneClientRun(
    stamp: string, clientHeader: string,
    name: string, address: string, received: string, sent: string, connected: string,
    routesHeader: string, virtual: string, realAddress: string, lastRef: string)
    requires StartsWith(clientHeader, "Common Name") && StartsWith(routesHeader, "Virtual Address")
    requires ',' !in stamp && ',' !in name && ',' !in address && ',' !in received
    requires ',' !in sent && ',' !in connected
    requires ',' !in virtual && ',' !in realAddress && ',' !in lastRef
    requires var row := Join([name, address, received, sent, connected], ',');
      !StartsWith(row, "Updated") && !StartsWith(row, "Common Name")
    requires !StartsWith(Join([virtual, name, realAddress, lastRef], ','), "Virtual Address")
    ensures var r := Run(Initial, [ClientListHeader, "Updated," + stamp, clientHeader, Join([name, address, received, sent, connected], ','),
      RoutingHeader, routesHeader, Join([virtual, name, realAddress, lastRef], ',')]);
      && r.updated == Str(stamp) && r.clients == Some([]) && r.order == [name]
      && r.clientObj == map[name := ClientRecord(name, Str(address), Str(virtual), Str(received), Str(sent), Str(connected), Str(lastRef))]
  {
    var row := [name, address, received, sent, connected];
    var route := [virtual, name, realAddress, lastRef];
    var listOpened := [ClientListHeader, "Updated," + stamp, clientHeader];
    var tableOpened := [RoutingHeader, routesHeader];
    var s4 := Initial.(section := Clients, updated := Str(stamp), clientStart := true, clients := Some([]),
      order := [name], clientObj := map[name := ClientRow(row)]);
    var s7 := s4.(section := Routes, routesStart := true,
      clientObj := map[name := ClientRow(row).(virtual := Str(virtual), updated := Str(lastRef))]);
    var first := listOpened + [Join(row, ',')];
    var second := tableOpened + [Join(route, ',')];
    assert Run(Initial, first) == s4 by {
      OneClientListed(stamp, clientHeader, name, address, received, sent, connected);
    }
    assert Run(s4, second) == s7 by {
      OneRouteRun(s4, routesHeader, virtual, name, realAddress, lastRef);
    }
    var lines := [ClientListHeader, "Updated," + stamp, clientHeader, Join(row, ','), RoutingHeader, routesHeader, Join(route, ',')];
    assert Run(Initial, lines) == s7 by {
      RunAppend(Initial, first, second);
      SevenLines(ClientListHeader, "Updated," + stamp, clientHeader, Join(row, ','), RoutingHeader, routesHeader, Join(route, ','));
    }
  }

  /** Three lines and one, then two lines and one, are the seven lines. */
  lemma SevenLines(a: string, b: string, c: string, d: string, e: string, f: string, g: string)
    ensures [a, b, c] + [d] + ([e, f] + [g]) == [a, b, c, d, e, f, g]
  {
  }

  /** A status log with a client list holding one client and a routing
      table naming that client yields exactly that one client, with every
      field taken from its row and its virtual address and last reference
      from the routing row; `updated` comes from the `Updated` line. */
  lemma OneClientWithRoute(
    stamp: string, clientHeader: string,
    name: string, address: string, received: string, sent: string, connected: string,
    routesHeader: string, virtual: string, realAddress: string, lastRef: string)
    requires StartsWith(clientHeader, "Common Name") && StartsWith(routesHeader, "Virtual Address")
    requires ',' !in stamp && ',' !in name && ',' !in address && ',' !in received
    requires ',' !in sent && ',' !in connected
    requires ',' !in virtual && ',' !in realAddress && ',' !in lastRef
    requires var row := Join([name, address, received, sent, connected], ',');
      !StartsWith(row, "Updated") && !StartsWith(row, "Common Name")
    requires !StartsWith(Join([virtual, name, realAddress, lastRef], ','), "Virtual Address")
    ensures Parse([
        ClientListHeader,
        "Updated," + stamp,
        clientHeader,
        Join([name, address, received, sent, connected], ','),
        RoutingHeader,
        routesHeader,
        Join([virtual, name, realAddress, lastRef], ',')])
      == StatusObj(Str(stamp), Some([
        ClientRecord(name, Str(address), Str(virtual), Str(received), Str(sent), Str(connected), Str(lastRef))]))
  {
    var lines := [ClientListHeader, "Updated," + stamp, clientHeader, Join([name, address, received, sent, connected], ','),
      RoutingHeader, routesHeader, Join([virtual, name, realAddress, lastRef], ',')];
    var rec := ClientRecord(name, Str(address), Str(virtual), Str(received), Str(sent), Str(connected), Str(lastRef));
    OneClientRun(stamp, clientHeader, name, address, received, sent, connected, routesHeader, virtual, realAddress, lastRef);
    var s7 := Run(Initial, lines);
    RunValid(Initial, lines);
    assert s7.order == [name] && s7.clientObj == map[name := rec];
    assert Flatten(s7.order, s7.clientObj) == [rec];
  }
}
